=== FILE: README.md ===
# Colour-based object selection and servoing for a Baxter stacking demo

This project is a Dafny model of three pieces of the `baxter_demos` ROS
package. Each piece is a pure state-transition function. The library
computations it calls into (PCL's colour conversion and pose estimation, the
tf transform, numpy's direction arithmetic) are passed in as function
parameters. Requests to the IK service are returned as `IkRequest` effects,
and ROS publications as message lists.

- **CloudSegmenter** (C++, `include/impl/CloudSegmenter.hpp`): stores the
  latest depth cloud and lets the operator click a point to choose a
  colour. It then keeps the clusters found by region growing whose average
  colour lies inside an HSV box around the chosen colour, and gives one
  pose per kept cluster. Modules `Colour` (range test and averaging) and
  `CloudSegmenter` (state, selection, events).
- **VisualCommand** (Python, `scripts/visual_servo.py`): a four-state mode
  selector (wait, planar servo, descend, done) driven by the blob centroid
  and the hand's range sensor, with a done latch. Module `VisualServo`.
- **ObjectManager and projectPose** (Python, `scripts/stackit.py`): a store
  of collision-object operations by id. It publishes the whole list once on
  the first message, and re-stamps every object it publishes with the
  stored operation. Module `ObjectManager`.

The modules `Support` (Option, Result) and `Geometry` (points, vectors,
quaternions, poses) are shared.

Modelling choices:
- A failing operation is a `Failure`. The source raises or dereferences an
  invalid pointer in these cases:
  - `cloud->at(n)` with an index out of range, or before any cloud has arrived;
  - a `KeyError` in `publish`.
- The segmenter's transitions take an `Averaging` argument. `AsWritten`
  builds each cluster's representative colour as line 142 of
  `CloudSegmenter.hpp` does. `Corrected` builds it as the first entry under
  "## Findings" argues was intended. Every run lemma holds for both.
- Selections are stated as existence of an increasing index sequence into
  the clusters. `CloudSegmenter.SelectionIsUnique` shows that this
  description determines the result.

## Model

| member | source | states |
|---|---|---|
| Colour.IsPointWithinDesiredRange | include/impl/CloudSegmenter.hpp:6-20 | A colour passes exactly when its H, S and V each differ from the target's by strictly less than the radius. The test is symmetric in its two colours. It never passes with a radius of 0 or less. A colour compared with itself passes exactly when the radius is positive. |
| Colour.ExactRadiusIsOutside | include/impl/CloudSegmenter.hpp:14-19 | The comparison is strict and per channel: a difference exactly equal to the radius on any one channel rejects, whatever the other channels are. |
| Colour.RangeIsMonotoneInRadius | include/impl/CloudSegmenter.hpp:14-19 | A colour accepted at some radius is accepted at every larger radius. |
| Colour.SumBetween | include/impl/CloudSegmenter.hpp:132-139 | The accumulated channel sum of n points lies between n times the channel's minimum and n times its maximum. |
| Colour.Mean | include/impl/CloudSegmenter.hpp:140-142 | The mean of a channel lies between that channel's minimum and maximum in the cluster. |
| Colour.MeanIsTruncatedQuotient | include/impl/CloudSegmenter.hpp:140-142 | The channel value after the cast to unsigned char is the largest integer whose n-fold does not exceed the sum. It is truncated, not rounded. |
| Colour.AverageIsTruncatedMean | include/impl/CloudSegmenter.hpp:130-142 | Each channel of a cluster's representative colour is the truncated mean of that channel, and lies within the channel's range in the cluster. |
| Colour.UniformAverage | include/impl/CloudSegmenter.hpp:130-142 | A cluster whose points all have one colour has that colour as its representative. |
| Colour.AverageAsWritten | include/impl/CloudSegmenter.hpp:136-142 | The representative colour as the code builds it equals the channel-wise mean with red and blue exchanged. |
| CloudSegmenter.HasCloud | include/impl/CloudSegmenter.hpp:22-24 | Reports the cloud flag. In a reachable state, no cloud means an empty cloud and no picked colour. |
| CloudSegmenter.HasColor | include/impl/CloudSegmenter.hpp:26-28 | Reports the colour flag. In a reachable state, a picked colour implies a cloud. |
| CloudSegmenter.ColorAt | include/impl/CloudSegmenter.hpp:91-94 | The colour read at an index has the point's red and blue exchanged: exchanging them again gives the point's own colour. |
| CloudSegmenter.Passes | include/impl/CloudSegmenter.hpp:130-145 | A kept cluster is non-empty and the radius is positive. As written, a non-empty cluster is kept exactly when its channel-wise mean, with red and blue exchanged, is within range of the desired colour. |
| CloudSegmenter.Init | include/impl/CloudSegmenter.hpp:44-45 | A new segmenter keeps the radius it was given, has no cloud and no desired colour, no selected clouds and no poses, and satisfies the invariant. |
| CloudSegmenter.KeptFrom | include/impl/CloudSegmenter.hpp:127-153 | The kept cluster positions are strictly increasing and in range. A position is kept exactly when that cluster passed the colour test. |
| CloudSegmenter.Segmentation | include/impl/CloudSegmenter.hpp:97-201 | Without a desired colour nothing changes. Otherwise it succeeds exactly when every cluster index addresses the cloud. The selected clouds are the subsets of the clusters that pass the colour test under the given averaging (`AsWritten` is line 142), in cluster order. Poses correspond one to one with those clouds, each estimated from its cloud in the segmenter's current frame. Only the selection and the poses change. |
| CloudSegmenter.SelectionIsUnique | include/impl/CloudSegmenter.hpp:124-153 | Two results that both satisfy the selection description are equal, so the description fixes contents and order. |
| CloudSegmenter.GetClickedPoint | include/impl/CloudSegmenter.hpp:64-77 | Index -1 changes nothing. Any other index succeeds exactly when it is inside the cloud and the clusters address the cloud. On success, the only changes are: the desired colour becomes the clicked point's colour, the colour flag is raised, and the selection and poses are recomputed for that colour under the given averaging. |
| CloudSegmenter.Callback | include/impl/CloudSegmenter.hpp:203-223 | A cloud message stores the new cloud and frame and raises the cloud flag. Nothing else changes: the radius, the desired colour and earlier results stay. The invariant is preserved. |
| CloudSegmenter.RunKeepsInvariant | include/impl/CloudSegmenter.hpp:64-77 | Along any run of cloud messages and clicks, a lowered cloud flag goes with an empty cloud, and a desired colour is only ever held together with a cloud. |
| CloudSegmenter.RunNeverClearsFlags | include/impl/CloudSegmenter.hpp:203-223 | Once raised, neither the cloud flag nor the colour flag is ever lowered along a run. |
| CloudSegmenter.ClickSelectsUniformCluster | include/impl/CloudSegmenter.hpp:124-153 | Take a cluster every point of which has the clicked point's colour, and a positive radius. As written (line 142), the click selects that cluster whenever the clicked colour's red and blue channels are equal. With the corrected averaging it always does. |
| CloudSegmenter.ClickedRedClusterRejectedAsWritten | include/impl/CloudSegmenter.hpp:132-145 | Take a cloud with one pure red point, clicked at radius 20, with standard hues (red 0, blue 240). As written, the click succeeds and selects nothing. With the corrected averaging it selects that point. |
| VisualServo.Init | scripts/visual_servo.py:38-49 | A new selector is waiting and not done, and has no centroid and no range reading. The hand therefore counts as in range for every pose and parameter set until the first reading. |
| VisualServo.SelectMode | scripts/visual_servo.py:123-130 | The chosen mode is never waiting. It is planar servo exactly when both offsets exceed 10 pixels. Otherwise it is descend exactly when out of range, and done exactly when in range. |
| VisualServo.OutOfRange | scripts/visual_servo.py:114-115 | Before any range reading the hand is never out of range. Once there is a reading, the hand is out of range exactly when it is at or above the minimum height and the reading is at least the minimum depth. |
| VisualServo.PoseArray | scripts/visual_servo.py:74-75 | A pose flattens to seven numbers (position, then orientation) that read back as the same pose. |
| VisualServo.CommandIk | scripts/visual_servo.py:72-78 | The IK target is seven numbers. Read back, the target's position is the current position moved by the direction, and its orientation is unchanged. |
| VisualServo.Dispatch | scripts/visual_servo.py:80-111 | Waiting asks nothing. Planar servo keeps the planar direction and climbs by the speed unless out of range (then 0). Descend targets the current pose lowered by the speed, orientation kept. Done sets the latch and asks nothing of the arm. |
| VisualServo.Servo | scripts/visual_servo.py:117-132 | Once done, nothing happens. Otherwise planar servo is chosen exactly when both offsets exceed 10 pixels, descend exactly when not and out of range, and done in the remaining case. Done is chosen exactly when the latch is set. The effect is that of the chosen state's action (line 132), so an IK request carries the target `Dispatch` states for that mode. |
| VisualServo.CentroidCallback | scripts/visual_servo.py:152-162 | The centroid is always stored. A -1 coordinate resets to waiting and asks nothing, with the latch unchanged. After done, a real centroid changes neither mode nor latch. Before done, a real centroid chooses the mode `SelectMode` gives for its offsets from the goal and the current range test (line 162 runs `visual_servo`), never waiting, and produces an effect. |
| VisualServo.IrCallback | scripts/visual_servo.py:164-165 | A range message stores the reading and changes nothing else. |
| VisualServo.DoneIsLatched | scripts/visual_servo.py:117-121 | From a done state, every later message leaves it done and asks nothing of the arm. |
| VisualServo.NothingAfterFinished | scripts/visual_servo.py:110-121 | In any run, every effect after the done state has run is empty. |
| ObjectManager.Init | scripts/stackit.py:91-98 | A new manager has no stored operations and no objects, has not published, and is consistent. |
| ObjectManager.Publish | scripts/stackit.py:66-68 | Publishing succeeds exactly when the id is known. The object is then sent with the stored operation and its other fields kept. An unknown id fails with that id. |
| ObjectManager.PublishIgnoresCallerOperation | scripts/stackit.py:267-268 | The operation a caller sets on an object before publishing it has no effect on what is sent. |
| ObjectManager.PublishEach | scripts/stackit.py:72-73 | Publishing a list sends one object per entry, in order, each re-stamped with its stored operation. |
| ObjectManager.PublishAll | scripts/stackit.py:71-73 | Every listed object is sent once, in list order, with its stored operation. Operations and the published flag are unchanged, and consistency is kept. |
| ObjectManager.Record | scripts/stackit.py:60-61 | Recording never removes an id, and the list's last object's id ends up stored with that object's operation. |
| ObjectManager.RecordKeys | scripts/stackit.py:60-61 | After recording a list, the stored ids are exactly the old ids plus the list's ids. |
| ObjectManager.RecordLastWins | scripts/stackit.py:60-61 | Each id of the list is stored with the operation of its last occurrence in the list. |
| ObjectManager.RecordKeepsOthers | scripts/stackit.py:60-61 | An id the list does not mention keeps its stored operation. |
| ObjectManager.Callback | scripts/stackit.py:56-64 | The received list replaces the stored one and its operations are recorded (last occurrence wins). The manager is then published and consistent. The first message sends every object with its recorded operation. Later messages send nothing. |
| ObjectManager.RemoveKnownObjects | scripts/stackit.py:83-88 | As written, shutdown sends exactly what publishing everything sends. Each message carries the stored operation, not REMOVE. |
| ObjectManager.ShutdownResendsAdd | scripts/stackit.py:83-88 | With one known box stored as ADD, shutdown sends that box as ADD. |
| ObjectManager.RemoveKnownObjectsIntended | scripts/stackit.py:83-88 | Corrected shutdown sends every listed object once, in order, as REMOVE. It stores REMOVE for every listed id and keeps other ids' operations and the set of ids. |
| ObjectManager.PublishAttached | scripts/stackit.py:75-81 | The object becomes an ADD with its other fields kept, and is sent attached to the side's gripper link. |
| ObjectManager.ProjectPose | scripts/stackit.py:109-113 | The position is kept and the orientation becomes the fixed gripper-down quaternion. |
| ObjectManager.ProjectPoseIdempotent | scripts/stackit.py:109-113 | Projecting twice equals projecting once. The fixed quaternion has unit norm to within 10^-9. |
| ObjectManager.PublishedCallbacksAreSilent | scripts/stackit.py:62-64 | Once published, any further run of messages sends nothing and stays published. |
| ObjectManager.PublishAllOnlyOnFirstCallback | scripts/stackit.py:62-64 | From a new manager, everything a run of messages sends is what its first message sent. The final state is published and consistent. |
| ObjectManager.CallbacksKeepConsistent | scripts/stackit.py:56-68 | Every state reached from a consistent manager is consistent, so publish_all never meets an unknown id. |

## Left out

- RGB to HSV conversion (`pcl::PointXYZRGBtoXYZHSV`): left out as library code. It is the parameter `hsv`. Every property holds for any conversion except `CloudSegmenter.ClickedRedClusterRejectedAsWritten`, which requires the conversion to give pure red and pure blue their hues (0 and 240).
- Region growing, the KdTree search, the NaN and depth (PassThrough) filters, and the filtered index list: left out as library code. The clusters are an input to a click.
- Pose estimation: left out as library code. This covers the moment-of-inertia OBB, the quaternion from the rotation matrix and the tf transformPose to `/base`. It is the parameter `estimate`, which receives the segmenter's frame id (line 193 of `CloudSegmenter.hpp`) and the cluster's cloud. The time stamp set at line 195 (`ros::Time::now()`) is not modelled, so `estimate` cannot depend on the time of the transform.
- Transform failures: `transformPose` has no handler, so a failed transform would throw out of `segmentation`. The model assumes it never fails (`estimate` is total).
- A failing click returns `Failure` and discards the whole step. In the source, an exception raised inside `segmentation` escapes after the desired colour and its flag have been stored. A bad cluster index throws at line 135 of `CloudSegmenter.hpp`; then `cloud_ptrs` holds the clusters kept before the failing one (line 150) and `object_poses` still holds the previous poses, since line 156 was not reached. A failed transform throws at line 196; then `cloud_ptrs` holds the full new selection and `object_poses` a prefix of the new poses. That partial state is not modelled.
- Empty clusters: the code divides 0 by 0 for an empty cluster, which has no defined result. The model never selects an empty cluster.
- The float channel sums and divisions are modelled as exact integer arithmetic. This agrees with the code while the sums stay exactly representable in a float (clusters below about 65 000 points).
- Not modelled, because they are display or ROS wiring:
  - the viewer, `renderCloud`, `renderClusters`, `colored_cloud`;
  - `publish_poses`;
  - the constructor's parameter reading and subscriptions;
  - `getCloudColorAt(x, y)`.
- `mergeCollidingBoxes` is declared in `include/CloudSegmenter.h` but has no definition here. Object identity tracking and exclusion masking are not part of this model.
- The numpy direction arithmetic in `servo_xy` is left out: the camera-to-base rotation, both normalisations and the final rescale. It is the parameters `planar` and `rescale`. `servo_z` computes an unused offset, also left out.
- Inputs read from the arm are parameters, not state: the endpoint pose is read once per centroid message, and the range reading is stored by `ir_callback`.
- `plan_execute_trajectory`, `info_callback`, the x extremes of the blob and the `grasp_ready` publisher are not modelled, because nothing in the mode selector reads them.
- Concurrency is not modelled: every handler runs atomically, one after another. In the segmenter, clicks arrive on the PCL viewer's thread and clouds on the ROS thread, with no lock around `cloud`. It is read at lines 92, 135 and 147 of `CloudSegmenter.hpp` and replaced at line 221. In `visual_servo.py`, `centroid_callback` and `ir_callback` run on separate rospy threads. A pass makes at most one range test: line 127 runs only when the test at line 125 fails, and `servo_xy` (line 92) only when it holds. The model gives each pass one reading. Because a pass tests the range at most once, the only difference from the source is when that reading is sampled.
- ROS publishers and subscribers are modelled as message lists returned by each transition. `rate.sleep` is left out as timing only.
- Not modelled because they are outside the object manager and `projectPose`:
  - `stackit.py`'s `main` loop (beyond the REMOVE publish it shows);
  - `incrementPoseMsgZ`;
  - `scripts/super_stacker.py`.
- ObjectManager.ProjectPose: the source overwrites the orientation of the pose it is given, in place (line 110 of `stackit.py`), and returns that same object. At line 182 that object is `obj.primitive_poses[0]`, so the stored collision object's pose changes too, and that changed pose is what lines 237 and 268 later send. The model returns a new pose and leaves the caller's object as it was, so this aliasing is not modelled.
- ObjectManager.PublishAttached: the touch-link list is computed in the source but never sent, so the model does not carry it.
- Colour.Average: its per-channel truncated-mean characterisation is stated in `Colour.AverageIsTruncatedMean` rather than as its own postcondition.
- Floating-point rounding of poses and of the HSV comparison is not modelled: coordinates are reals.

## Findings

| source | as written | input that shows it | evidently intended | confidence | as-written member | corrected member |
|---|---|---|---|---|---|---|
| include/impl/CloudSegmenter.hpp:91-142 | `getCloudColorAt` builds its colour with blue and red exchanged. The averaging code exchanges them again when it builds the representative colour. The representative colour and the desired colour therefore use opposite channel orders. | One red point (255, 0, 0) forming one cluster, clicked, radius 20, standard hues (red 0, blue 240). The cluster is rejected. | The cluster average and the clicked colour use one channel order, so a uniformly coloured cluster matches its own clicked colour. | not executed; medium, because it assumes `pcl::PointRGB`'s three-argument constructor takes (r, g, b) | CloudSegmenter.ClickedRedClusterRejectedAsWritten | CloudSegmenter.ClickSelectsUniformCluster |
| scripts/stackit.py:83-88 | `remove_known_objects` sets REMOVE on each object, then `publish` overwrites it with the stored operation. | One known box stored as ADD: shutdown sends ADD. | Every known object is sent as REMOVE at shutdown. | not executed; high | ObjectManager.ShutdownResendsAdd | ObjectManager.RemoveKnownObjectsIntended |

=== FILE: cloud_segmenter.dfy ===
/** The colour-picking object segmenter (CloudSegmenter.hpp): the latest
    point cloud, the colour the operator clicked, and the clusters and poses
    selected by that colour. Region growing, the oriented bounding box and
    the frame transform are outside the model: the clusters are an input and
    the pose of a selected cluster is the parameter `estimate`. */
module CloudSegmenter {
  import opened Support
  import opened Colour
  import Geometry

  /** pcl::PointXYZRGB */
  datatype CloudPoint = CloudPoint(x: real, y: real, z: real, r: Channel, g: Channel, b: Channel)

  type Cloud = seq<CloudPoint>

  /** pcl::PointIndices: positions in the cloud, in the order region growing
      reports them. */
  type Indices = seq<int>

  /** The fields of CloudSegmenter that the selection reads and writes. */
  datatype Segmenter = Segmenter(
    radius: int,
    hasDesiredColor: bool,
    hasCloud: bool,
    frameId: string,
    desiredColor: Rgb,
    cloud: Cloud,
    cloudPtrs: seq<Cloud>,
    objectPoses: seq<Geometry.Pose>)

  /** cloud->at(n) throws std::out_of_range; before the first cloud arrives
      the pointer is null and the model reads that as an empty cloud. */
  datatype Error = IndexOutOfRange

  /** Facts every reachable segmenter keeps: no cloud means the empty
      cloud, and a colour can only have been picked from a cloud. */
  predicate Invariant(s: Segmenter)
  {
    && (!s.hasCloud ==> s.cloud == [])
    && (s.hasDesiredColor ==> s.hasCloud)
  }

  /** The constructor, given the configured radius: both flags false. */
  function Init(radius: int): (s: Segmenter)
    ensures s.radius == radius
    ensures Invariant(s)
    ensures !HasCloud(s) && !HasColor(s)
    ensures s.cloudPtrs == [] && s.objectPoses == []
  {
    Segmenter(radius, false, false, "", Rgb(0, 0, 0), [], [], [])
  }

  /** CloudSegmenter::hasCloud. In a reachable state, no cloud means the
      empty cloud and no picked colour. */
  function HasCloud(s: Segmenter): (b: bool)
    ensures Invariant(s) && !b ==> s.cloud == [] && !s.hasDesiredColor
  {
    s.hasCloud
  }

  /** CloudSegmenter::hasColor. In a reachable state, a picked colour
      implies a cloud. */
  function HasColor(s: Segmenter): (b: bool)
    ensures Invariant(s) && b ==> s.hasCloud
  {
    s.hasDesiredColor
  }

  /** getCloudColorAt(n): the point's blue, green and red, in that order,
      given to the (r, g, b) constructor, so exchanging red and blue again
      gives back the point's own colour. */
  function ColorAt(cloud: Cloud, n: int): (c: Rgb)
    requires 0 <= n < |cloud|
    ensures SwapRedBlue(c) == Rgb(cloud[n].r, cloud[n].g, cloud[n].b)
  {
    var p := cloud[n];
    Rgb(p.b, p.g, p.r)
  }

  predicate IndexesCloud(cloud: Cloud, idx: Indices)
  {
    forall j :: 0 <= j < |idx| ==> 0 <= idx[j] < |cloud|
  }

  predicate AllIndexCloud(cloud: Cloud, clusters: seq<Indices>)
  {
    forall i :: 0 <= i < |clusters| ==> IndexesCloud(cloud, clusters[i])
  }

  /** The colours of a cluster's points, read through getCloudColorAt. */
  function ClusterColors(cloud: Cloud, idx: Indices): seq<Rgb>
    requires IndexesCloud(cloud, idx)
  {
    seq(|idx|, j requires 0 <= j < |idx| => ColorAt(cloud, idx[j]))
  }

  /** The cloud built from a cloud and a list of indices: the indexed
      points, in index order. */
  function Subset(cloud: Cloud, idx: Indices): Cloud
    requires IndexesCloud(cloud, idx)
  {
    seq(|idx|, j requires 0 <= j < |idx| => cloud[idx[j]])
  }

  /** How a cluster's representative colour is built: `AsWritten` as line
      142 of CloudSegmenter.hpp builds it (red and blue exchanged against
      the clicked colour), `Corrected` in the channel order the points were
      read in. */
  datatype Averaging = AsWritten | Corrected

  /** Whether a cluster is kept: its representative colour is within range
      of the desired colour. A cluster without points is never kept (the
      source would divide zero by zero). */
  function Passes(cloud: Cloud, idx: Indices, desired: Rgb, radius: int, hsv: Rgb -> Hsv, how: Averaging): (ok: bool)
    requires IndexesCloud(cloud, idx)
    ensures ok ==> |idx| > 0 && radius > 0
    ensures |idx| > 0 && how == AsWritten ==>
              (ok <==> IsPointWithinDesiredRange(SwapRedBlue(Average(ClusterColors(cloud, idx))), desired, radius, hsv))
  {
    && |idx| > 0
    && var cs := ClusterColors(cloud, idx);
       IsPointWithinDesiredRange(if how == AsWritten then AverageAsWritten(cs) else Average(cs), desired, radius, hsv)
  }

  /** The keep decision of every cluster, in clustering order. */
  function Decisions(cloud: Cloud, clusters: seq<Indices>, desired: Rgb, radius: int, hsv: Rgb -> Hsv,
                     how: Averaging): (keep: seq<bool>)
    requires AllIndexCloud(cloud, clusters)
    ensures |keep| == |clusters|
    ensures forall i :: 0 <= i < |clusters| ==> keep[i] == Passes(cloud, clusters[i], desired, radius, hsv, how)
  {
    seq(|clusters|, i requires 0 <= i < |clusters| => Passes(cloud, clusters[i], desired, radius, hsv, how))
  }

  predicate Increasing(ix: seq<int>)
  {
    forall a, b :: 0 <= a < b < |ix| ==> ix[a] < ix[b]
  }

  /** The positions at or after `from` whose decision is true, in order. */
  function KeptFrom(keep: seq<bool>, from: int): (ix: seq<int>)
    requires 0 <= from <= |keep|
    ensures Increasing(ix)
    ensures forall k :: 0 <= k < |ix| ==> from <= ix[k] < |keep|
    ensures forall i :: from <= i < |keep| ==> (i in ix <==> keep[i])
    decreases |keep| - from
  {
    if from == |keep| then []
    else if keep[from] then [from] + KeptFrom(keep, from + 1)
    else KeptFrom(keep, from + 1)
  }

  /** `sel` is the selection that the increasing positions `ix` describe:
      exactly the kept clusters, in clustering order, each as the subset of
      the cloud its indices name. */
  predicate SelectedBy(sel: seq<Cloud>, cloud: Cloud, clusters: seq<Indices>, keep: seq<bool>, ix: seq<int>)
  {
    && AllIndexCloud(cloud, clusters)
    && |keep| == |clusters|
    && Increasing(ix)
    && (forall k :: 0 <= k < |ix| ==> 0 <= ix[k] < |clusters|)
    && (forall i :: 0 <= i < |clusters| ==> (i in ix <==> keep[i]))
    && |sel| == |ix|
    && (forall k :: 0 <= k < |ix| ==> sel[k] == Subset(cloud, clusters[ix[k]]))
  }

  ghost predicate IsSelection(sel: seq<Cloud>, cloud: Cloud, clusters: seq<Indices>, keep: seq<bool>)
  {
    exists ix :: SelectedBy(sel, cloud, clusters, keep, ix)
  }

  /** CloudSegmenter::segmentation, from the clusters region growing
      returned: nothing happens before a colour is picked; otherwise the
      selected clouds and their poses replace the previous ones. */
  function Segmentation(s: Segmenter, clusters: seq<Indices>, hsv: Rgb -> Hsv,
                        estimate: (string, Cloud) -> Geometry.Pose, how: Averaging): (r: Result<Segmenter, Error>)
    ensures !s.hasDesiredColor ==> r == Success(s)
    ensures s.hasDesiredColor ==> (r.Success? <==> AllIndexCloud(s.cloud, clusters))
    ensures r.Success? && s.hasDesiredColor ==>
              && IsSelection(r.value.cloudPtrs, s.cloud, clusters,
                             Decisions(s.cloud, clusters, s.desiredColor, s.radius, hsv, how))
              && |r.value.objectPoses| == |r.value.cloudPtrs|
              && (forall k :: 0 <= k < |r.value.cloudPtrs| ==>
                    r.value.objectPoses[k] == estimate(s.frameId, r.value.cloudPtrs[k]))
              && r.value == s.(cloudPtrs := r.value.cloudPtrs, objectPoses := r.value.objectPoses)
  {
    if !s.hasDesiredColor then Success(s)
    else if !AllIndexCloud(s.cloud, clusters) then Failure(IndexOutOfRange)
    else
      var keep := Decisions(s.cloud, clusters, s.desiredColor, s.radius, hsv, how);
      var ix := KeptFrom(keep, 0);
      var ptrs := seq(|ix|, k requires 0 <= k < |ix| => Subset(s.cloud, clusters[ix[k]]));
      assert SelectedBy(ptrs, s.cloud, clusters, keep, ix);
      var poses := seq(|ptrs|, k requires 0 <= k < |ptrs| => estimate(s.frameId, ptrs[k]));
      Success(s.(cloudPtrs := ptrs, objectPoses := poses))
  }

  /** CloudSegmenter::getClickedPoint: index -1 means nothing was picked;
      any other index sets the desired colour from the cloud, raises the
      flag and segments. */
  function GetClickedPoint(s: Segmenter, n: int, clusters: seq<Indices>, hsv: Rgb -> Hsv,
                           estimate: (string, Cloud) -> Geometry.Pose, how: Averaging): (r: Result<Segmenter, Error>)
    ensures n == -1 ==> r == Success(s)
    ensures n != -1 ==> (r.Success? <==> 0 <= n < |s.cloud| && AllIndexCloud(s.cloud, clusters))
    ensures n != -1 && r.Success? ==>
              && HasColor(r.value)
              && r.value.desiredColor == ColorAt(s.cloud, n)
              && r.value.cloud == s.cloud
              && r.value.hasCloud == s.hasCloud
              && IsSelection(r.value.cloudPtrs, s.cloud, clusters,
                             Decisions(s.cloud, clusters, ColorAt(s.cloud, n), s.radius, hsv, how))
              && |r.value.objectPoses| == |r.value.cloudPtrs|
              && (forall k :: 0 <= k < |r.value.cloudPtrs| ==>
                    r.value.objectPoses[k] == estimate(s.frameId, r.value.cloudPtrs[k]))
              && r.value == s.(desiredColor := ColorAt(s.cloud, n), hasDesiredColor := true,
                               cloudPtrs := r.value.cloudPtrs, objectPoses := r.value.objectPoses)
  {
    if n == -1 then Success(s)
    else if !(0 <= n < |s.cloud|) then Failure(IndexOutOfRange)
    else Segmentation(s.(desiredColor := ColorAt(s.cloud, n), hasDesiredColor := true), clusters, hsv, estimate, how)
  }

  /** CloudSegmenter::callback, after NaN removal: the new
      cloud and its frame replace the old ones; earlier results stay. */
  function Callback(s: Segmenter, frameId: string, cloud: Cloud): (t: Segmenter)
    ensures HasCloud(t) && t.cloud == cloud && t.frameId == frameId
    ensures HasColor(t) == HasColor(s) && t.desiredColor == s.desiredColor
    ensures t.cloudPtrs == s.cloudPtrs && t.objectPoses == s.objectPoses
    ensures Invariant(s) ==> Invariant(t)
    ensures t.radius == s.radius
    ensures t.(frameId := s.frameId, cloud := s.cloud, hasCloud := s.hasCloud) == s
  {
    s.(frameId := frameId, cloud := cloud, hasCloud := true)
  }

  // ---------------------------------------------------------------------
  // Runs of events
  // ---------------------------------------------------------------------

  datatype Event =
    | CloudMessage(frameId: string, cloud: Cloud)
    | PointPicked(index: int, clusters: seq<Indices>)

  function Step(s: Segmenter, e: Event, hsv: Rgb -> Hsv, estimate: (string, Cloud) -> Geometry.Pose, how: Averaging): Result<Segmenter, Error>
  {
    match e
    case CloudMessage(f, c) => Success(Callback(s, f, c))
    case PointPicked(n, clusters) => GetClickedPoint(s, n, clusters, hsv, estimate, how)
  }

  /** The events applied in order; an exception ends the run. */
  function Run(s: Segmenter, es: seq<Event>, hsv: Rgb -> Hsv, estimate: (string, Cloud) -> Geometry.Pose, how: Averaging): Result<Segmenter, Error>
    decreases |es|
  {
    if es == [] then Success(s)
    else
      match Step(s, es[0], hsv, estimate, how)
      case Failure(err) => Failure(err)
      case Success(t) => Run(t, es[1..], hsv, estimate, how)
  }

  lemma StepKeepsInvariant(s: Segmenter, e: Event, hsv: Rgb -> Hsv, estimate: (string, Cloud) -> Geometry.Pose, how: Averaging)
    requires Invariant(s)
    ensures Step(s, e, hsv, estimate, how).Success? ==> Invariant(Step(s, e, hsv, estimate, how).value)
  {
  }

  /** Every state a run reaches keeps the invariant; in particular a colour
      is never picked before a cloud has arrived. */
  lemma {:induction false} RunKeepsInvariant(s: Segmenter, es: seq<Event>, hsv: Rgb -> Hsv,
                                             estimate: (string, Cloud) -> Geometry.Pose, how: Averaging)
    requires Invariant(s)
    ensures Run(s, es, hsv, estimate, how).Success? ==> Invariant(Run(s, es, hsv, estimate, how).value)
    decreases |es|
  {
    if es != [] {
      StepKeepsInvariant(s, es[0], hsv, estimate, how);
      var st := Step(s, es[0], hsv, estimate, how);
      if st.Success? {
        RunKeepsInvariant(st.value, es[1..], hsv, estimate, how);
      }
    }
  }

  /** No event clears either flag once it is set. */
  lemma {:induction false} RunNeverClearsFlags(s: Segmenter, es: seq<Event>, hsv: Rgb -> Hsv,
                                               estimate: (string, Cloud) -> Geometry.Pose, how: Averaging)
    ensures var r := Run(s, es, hsv, estimate, how);
            r.Success? ==> (HasCloud(s) ==> HasCloud(r.value)) && (HasColor(s) ==> HasColor(r.value))
    decreases |es|
  {
    if es != [] {
      var st := Step(s, es[0], hsv, estimate, how);
      if st.Success? {
        RunNeverClearsFlags(st.value, es[1..], hsv, estimate, how);
      }
    }
  }

  // ---------------------------------------------------------------------
  // The selection is determined by the decisions
  // ---------------------------------------------------------------------

  lemma FirstIsLeast(a: seq<int>, i: int)
    requires Increasing(a) && 0 <= i < |a|
    ensures a[0] <= a[i]
  {
    if i > 0 {
      assert a[0] < a[i];
    }
  }

  /** For increasing sequences with the same head, an element of the first
      one's tail that occurs in the second occurs in its tail. */
  lemma TailSubset(a: seq<int>, b: seq<int>)
    requires Increasing(a) && Increasing(b) && a != [] && b != [] && a[0] == b[0]
    requires forall x :: x in a ==> x in b
    ensures forall x :: x in a[1..] ==> x in b[1..]
  {
    forall x | x in a[1..]
      ensures x in b[1..]
    {
      var k :| 0 <= k < |a| - 1 && a[k + 1] == x;
      assert a[0] < a[k + 1];
      assert x in a;
      var m :| 0 <= m < |b| && b[m] == x;
      assert m != 0;
      assert b[1..][m - 1] == x;
    }
  }

  /** Two increasing sequences with the same elements are equal. */
  lemma {:induction false} IncreasingDeterminedByElements(a: seq<int>, b: seq<int>)
    requires Increasing(a) && Increasing(b)
    requires forall x :: x in a <==> x in b
    ensures a == b
    decreases |a|
  {
    if a == [] {
      assert forall k :: 0 <= k < |b| ==> b[k] in b;
    } else {
      assert a[0] in a;
      assert a[0] in b;
      assert b != [];
      assert b[0] in a;
      var i :| 0 <= i < |a| && a[i] == b[0];
      var j :| 0 <= j < |b| && b[j] == a[0];
      FirstIsLeast(a, i);
      FirstIsLeast(b, j);
      assert a[0] == b[0];
      var ta, tb := a[1..], b[1..];
      TailSubset(a, b);
      TailSubset(b, a);
      IncreasingDeterminedByElements(ta, tb);
      assert a == [a[0]] + ta;
      assert b == [b[0]] + tb;
    }
  }

  /** The selection specification admits exactly one outcome, so it fully
      describes what segmentation stores. */
  lemma SelectionIsUnique(sel1: seq<Cloud>, sel2: seq<Cloud>, cloud: Cloud, clusters: seq<Indices>, keep: seq<bool>)
    requires IsSelection(sel1, cloud, clusters, keep)
    requires IsSelection(sel2, cloud, clusters, keep)
    ensures sel1 == sel2
  {
    var ix1 :| SelectedBy(sel1, cloud, clusters, keep, ix1);
    var ix2 :| SelectedBy(sel2, cloud, clusters, keep, ix2);
    forall x
      ensures x in ix1 <==> x in ix2
    {
      if x in ix1 {
        var k :| 0 <= k < |ix1| && ix1[k] == x;
        assert 0 <= x < |clusters|;
      }
      if x in ix2 {
        var k :| 0 <= k < |ix2| && ix2[k] == x;
        assert 0 <= x < |clusters|;
      }
    }
    IncreasingDeterminedByElements(ix1, ix2);
  }

  // ---------------------------------------------------------------------
  // Picking a uniformly coloured cluster
  // ---------------------------------------------------------------------

  /** Clicking a point of a cluster all of whose points share its colour
      selects that cluster, whenever the radius is positive: with the
      corrected averaging always, and with the averaging as written only
      when that colour's red and blue channels agree. */
  lemma ClickSelectsUniformCluster(s: Segmenter, n: int, clusters: seq<Indices>, i: int,
                                   hsv: Rgb -> Hsv, estimate: (string, Cloud) -> Geometry.Pose, how: Averaging)
    requires 0 <= n < |s.cloud| && AllIndexCloud(s.cloud, clusters) && s.radius > 0
    requires 0 <= i < |clusters| && |clusters[i]| > 0
    requires forall j :: 0 <= j < |clusters[i]| ==> ColorAt(s.cloud, clusters[i][j]) == ColorAt(s.cloud, n)
    requires how == Corrected || s.cloud[n].r == s.cloud[n].b
    ensures var r := GetClickedPoint(s, n, clusters, hsv, estimate, how);
            && r.Success?
            && exists k :: 0 <= k < |r.value.cloudPtrs| && r.value.cloudPtrs[k] == Subset(s.cloud, clusters[i])
  {
    var c := ColorAt(s.cloud, n);
    var r := GetClickedPoint(s, n, clusters, hsv, estimate, how);
    var cs := ClusterColors(s.cloud, clusters[i]);
    UniformAverage(cs, c);
    if how == AsWritten {
      assert SwapRedBlue(c) == c;
    }
    var keep := Decisions(s.cloud, clusters, c, s.radius, hsv, how);
    assert keep[i];
    var ix :| SelectedBy(r.value.cloudPtrs, s.cloud, clusters, keep, ix);
    assert i in ix;
    var k :| 0 <= k < |ix| && ix[k] == i;
    assert r.value.cloudPtrs[k] == Subset(s.cloud, clusters[i]);
  }

  /** With a single cluster, the selection is that cluster's subset when it
      is kept and empty otherwise. */
  lemma SingleClusterSelection(sel: seq<Cloud>, cloud: Cloud, idx: Indices, keep: seq<bool>)
    requires IndexesCloud(cloud, idx) && |keep| == 1
    requires IsSelection(sel, cloud, [idx], keep)
    ensures sel == if keep[0] then [Subset(cloud, idx)] else []
  {
    var ix :| SelectedBy(sel, cloud, [idx], keep, ix);
    var expected := if keep[0] then [0] else [];
    forall x
      ensures x in ix <==> x in expected
    {
      if x in ix {
        var k :| 0 <= k < |ix| && ix[k] == x;
      }
    }
    IncreasingDeterminedByElements(ix, expected);
  }

  /** The colour test alone: the pure red point's cluster fails with the
      averaging as written and passes with the corrected one. */
  lemma RedClusterDecisions(hsv: Rgb -> Hsv)
    requires hsv(Rgb(255, 0, 0)).h == 0.0 && hsv(Rgb(0, 0, 255)).h == 240.0
    ensures var cloud := [CloudPoint(0.0, 0.0, 0.0, 255, 0, 0)];
            && !Passes(cloud, [0], ColorAt(cloud, 0), 20, hsv, AsWritten)
            && Passes(cloud, [0], ColorAt(cloud, 0), 20, hsv, Corrected)
  {
    var cloud := [CloudPoint(0.0, 0.0, 0.0, 255, 0, 0)];
    var cs := ClusterColors(cloud, [0]);
    assert cs == [Rgb(0, 0, 255)];
    UniformAverage(cs, Rgb(0, 0, 255));
  }

  /** As written, clicking the only point of a pure red cloud selects
      nothing at radius 20, given the standard HSV hues of red (0) and blue
      (240); with the corrected averaging the same click selects that point. */
  lemma ClickedRedClusterRejectedAsWritten(hsv: Rgb -> Hsv, estimate: (string, Cloud) -> Geometry.Pose)
    requires hsv(Rgb(255, 0, 0)).h == 0.0 && hsv(Rgb(0, 0, 255)).h == 240.0
    ensures var red := CloudPoint(0.0, 0.0, 0.0, 255, 0, 0);
            var s := Callback(Init(20), "camera", [red]);
            && GetClickedPoint(s, 0, [[0]], hsv, estimate, AsWritten).Success?
            && GetClickedPoint(s, 0, [[0]], hsv, estimate, AsWritten).value.cloudPtrs == []
            && GetClickedPoint(s, 0, [[0]], hsv, estimate, Corrected).Success?
            && GetClickedPoint(s, 0, [[0]], hsv, estimate, Corrected).value.cloudPtrs == [[red]]
  {
    var red := CloudPoint(0.0, 0.0, 0.0, 255, 0, 0);
    var s := Callback(Init(20), "camera", [red]);
    RedClusterDecisions(hsv);
    var desired := ColorAt(s.cloud, 0);
    var w := GetClickedPoint(s, 0, [[0]], hsv, estimate, AsWritten);
    SingleClusterSelection(w.value.cloudPtrs, s.cloud, [0], Decisions(s.cloud, [[0]], desired, 20, hsv, AsWritten));
    var c := GetClickedPoint(s, 0, [[0]], hsv, estimate, Corrected);
    SingleClusterSelection(c.value.cloudPtrs, s.cloud, [0], Decisions(s.cloud, [[0]], desired, 20, hsv, Corrected));
    assert Subset(s.cloud, [0]) == [red];
  }
}

=== FILE: colour.dfy ===
/** Colours of the segmenter: 8-bit RGB triples, their HSV image, the
    axis-aligned HSV range test and the per-channel integer mean of a
    cluster's colours. */
module Colour {
  import opened Geometry

  /** An 8-bit colour channel (an unsigned char). */
  type Channel = x: int | 0 <= x <= 255

  /** pcl::PointRGB. Its three-argument constructor takes (r, g, b). */
  datatype Rgb = Rgb(r: Channel, g: Channel, b: Channel)

  /** pcl::PointXYZHSV, the three channels only. */
  datatype Hsv = Hsv(h: real, s: real, v: real)

  datatype Chan = Red | Green | Blue

  function Get(c: Rgb, ch: Chan): Channel
  {
    match ch
    case Red => c.r
    case Green => c.g
    case Blue => c.b
  }

  /** The colour with its red and blue channels exchanged. */
  function SwapRedBlue(c: Rgb): Rgb
  {
    Rgb(c.b, c.g, c.r)
  }

  /** Each HSV channel differs by strictly less than the radius. */
  predicate InBox(p: Hsv, q: Hsv, radius: int)
  {
    && Abs(p.h - q.h) < radius as real
    && Abs(p.s - q.s) < radius as real
    && Abs(p.v - q.v) < radius as real
  }

  /** CloudSegmenter::isPointWithinDesiredRange. Both colours go through the
      library's RGB to HSV conversion, which is not part of this model and is
      therefore the parameter `hsv`; the test is a box, not a ball. */
  function IsPointWithinDesiredRange(input: Rgb, desired: Rgb, radius: int, hsv: Rgb -> Hsv): (ok: bool)
    ensures ok == InBox(hsv(desired), hsv(input), radius)
    ensures ok ==> radius > 0
    ensures input == desired ==> (ok <==> radius > 0)
  {
    InBox(hsv(input), hsv(desired), radius)
  }

  /** A difference exactly equal to the radius on any one channel rejects,
      whatever the other two channels are. */
  lemma ExactRadiusIsOutside(input: Rgb, desired: Rgb, radius: int, hsv: Rgb -> Hsv)
    requires || Abs(hsv(input).h - hsv(desired).h) == radius as real
             || Abs(hsv(input).s - hsv(desired).s) == radius as real
             || Abs(hsv(input).v - hsv(desired).v) == radius as real
    ensures !IsPointWithinDesiredRange(input, desired, radius, hsv)
  {
  }

  /** Widening the radius never rejects a colour that was accepted. */
  lemma RangeIsMonotoneInRadius(input: Rgb, desired: Rgb, radius: int, wider: int, hsv: Rgb -> Hsv)
    requires radius <= wider
    requires IsPointWithinDesiredRange(input, desired, radius, hsv)
    ensures IsPointWithinDesiredRange(input, desired, wider, hsv)
  {
  }

  // ---------------------------------------------------------------------
  // Sums, extremes and the truncated mean of a channel
  // ---------------------------------------------------------------------

  function Sum(xs: seq<int>): int
  {
    if xs == [] then 0 else xs[0] + Sum(xs[1..])
  }

  function Min(xs: seq<int>): (m: int)
    requires |xs| > 0
    ensures m in xs
    ensures forall i :: 0 <= i < |xs| ==> m <= xs[i]
  {
    if |xs| == 1 then xs[0]
    else
      var t := Min(xs[1..]);
      if xs[0] <= t then xs[0] else t
  }

  function Max(xs: seq<int>): (m: int)
    requires |xs| > 0
    ensures m in xs
    ensures forall i :: 0 <= i < |xs| ==> xs[i] <= m
  {
    if |xs| == 1 then xs[0]
    else
      var t := Max(xs[1..]);
      if xs[0] >= t then xs[0] else t
  }

  lemma MulMonotone(a: int, b: int, n: int)
    requires n >= 0 && a <= b
    ensures a * n <= b * n
  {
  }

  lemma MulSucc(a: int, n: int)
    ensures (a + 1) * n == a * n + n
  {
  }

  lemma MulSuccRight(a: int, n: int)
    ensures a * (n + 1) == a * n + a
  {
  }

  /** The sum of n values lies between n times their minimum and n times
      their maximum. */
  lemma {:induction false} SumBetween(xs: seq<int>)
    requires |xs| > 0
    ensures Min(xs) * |xs| <= Sum(xs) <= Max(xs) * |xs|
  {
    if |xs| > 1 {
      var t := xs[1..];
      SumBetween(t);
      var lo, hi, tlo, thi := Min(xs), Max(xs), Min(t), Max(t);
      assert lo <= tlo by {
        assert tlo in t;
      }
      assert thi <= hi by {
        assert thi in t;
      }
      var n := |t|;
      assert |xs| == n + 1;
      MulMonotone(lo, tlo, n);
      MulMonotone(thi, hi, n);
      MulSuccRight(lo, n);
      MulSuccRight(hi, n);
      assert lo <= xs[0] <= hi;
      assert Sum(xs) == xs[0] + Sum(t);
    }
  }

  lemma DivFacts(s: int, n: int)
    requires n > 0
    ensures (s / n) * n <= s < (s / n + 1) * n
  {
    var q, r := s / n, s % n;
    assert s == q * n + r && 0 <= r < n;
    MulSucc(q, n);
  }

  /** Integer division by a positive count keeps bounds that hold of the
      dividend scaled by that count. */
  lemma DivBetween(s: int, n: int, lo: int, hi: int)
    requires n > 0
    requires lo * n <= s <= hi * n
    ensures lo <= s / n <= hi
  {
    var q := s / n;
    DivFacts(s, n);
    if q < lo {
      MulMonotone(q + 1, lo, n);
      assert false;
    }
    if q > hi {
      MulMonotone(hi + 1, q, n);
      MulSucc(hi, n);
      assert false;
    }
  }

  /** The mean of a non-empty sequence of channel values, truncated the way
      a float-to-unsigned-char cast truncates a non-negative value. */
  function Mean(xs: seq<int>): (m: int)
    requires |xs| > 0
    ensures Min(xs) <= m <= Max(xs)
  {
    SumBetween(xs);
    DivBetween(Sum(xs), |xs|, Min(xs), Max(xs));
    Sum(xs) / |xs|
  }

  /** The mean is the largest integer whose n-fold does not exceed the sum:
      the quotient truncated, not rounded. */
  lemma MeanIsTruncatedQuotient(xs: seq<int>)
    requires |xs| > 0
    ensures Mean(xs) * |xs| <= Sum(xs) < (Mean(xs) + 1) * |xs|
  {
    DivFacts(Sum(xs), |xs|);
  }

  /** One channel of each colour, in order. */
  function Channels(cs: seq<Rgb>, ch: Chan): (xs: seq<int>)
    ensures |xs| == |cs|
    ensures forall i :: 0 <= i < |xs| ==> xs[i] == Get(cs[i], ch)
  {
    seq(|cs|, i requires 0 <= i < |cs| => Get(cs[i], ch) as int)
  }

  lemma MeanIsChannel(cs: seq<Rgb>, ch: Chan)
    requires |cs| > 0
    ensures 0 <= Mean(Channels(cs, ch)) <= 255
  {
    var xs := Channels(cs, ch);
    var lo := Min(xs);
    var hi := Max(xs);
    assert lo in xs && hi in xs;
  }

  /** The representative colour of a cluster: the truncated per-channel mean
      of its colours, each channel kept in the position it was read from. */
  function Average(cs: seq<Rgb>): Rgb
    requires |cs| > 0
  {
    MeanIsChannel(cs, Red);
    MeanIsChannel(cs, Green);
    MeanIsChannel(cs, Blue);
    Rgb(Mean(Channels(cs, Red)), Mean(Channels(cs, Green)), Mean(Channels(cs, Blue)))
  }

  /** Each channel of the representative colour is the truncated mean of
      that channel, so it lies between the channel's extremes in the cluster. */
  lemma AverageIsTruncatedMean(cs: seq<Rgb>, ch: Chan)
    requires |cs| > 0
    ensures var a, xs := Get(Average(cs), ch), Channels(cs, ch);
            && a * |cs| <= Sum(xs) < (a + 1) * |cs|
            && Min(xs) <= a <= Max(xs)
  {
    MeanIsTruncatedQuotient(Channels(cs, ch));
  }

  /** The representative colour exactly as CloudSegmenter.hpp builds it: the
      red sum is divided and passed as the constructor's third argument and
      the blue sum as its first, so red and blue change places. */
  function AverageAsWritten(cs: seq<Rgb>): (a: Rgb)
    requires |cs| > 0
    ensures a == SwapRedBlue(Average(cs))
  {
    MeanIsChannel(cs, Red);
    MeanIsChannel(cs, Green);
    MeanIsChannel(cs, Blue);
    Rgb(Mean(Channels(cs, Blue)), Mean(Channels(cs, Green)), Mean(Channels(cs, Red)))
  }

  /** A cluster whose colours are all the same averages to that colour. */
  lemma {:induction false} UniformAverage(cs: seq<Rgb>, c: Rgb)
    requires |cs| > 0
    requires forall i :: 0 <= i < |cs| ==> cs[i] == c
    ensures Average(cs) == c
  {
    forall ch
      ensures Get(Average(cs), ch) == Get(c, ch)
    {
      var xs := Channels(cs, ch);
      assert Min(xs) == Get(c, ch) by {
        assert Min(xs) in xs;
      }
      assert Max(xs) == Get(c, ch) by {
        assert Max(xs) in xs;
      }
    }
    assert Get(Average(cs), Red) == c.r;
    assert Get(Average(cs), Green) == c.g;
    assert Get(Average(cs), Blue) == c.b;
  }
}

=== FILE: geometry.dfy ===
/** The geometry_msgs records the nodes exchange: points, vectors,
    quaternions and poses, with real coordinates. */
module Geometry {

  datatype Point = Point(x: real, y: real, z: real)

  datatype Vector3 = Vector3(x: real, y: real, z: real)

  /** Field order as in geometry_msgs/Quaternion: x, y, z, w. */
  datatype Quaternion = Quaternion(x: real, y: real, z: real, w: real)

  datatype Pose = Pose(position: Point, orientation: Quaternion)

  /** The point displaced by a vector. */
  function Translate(p: Point, d: Vector3): Point
  {
    Point(p.x + d.x, p.y + d.y, p.z + d.z)
  }

  /** Absolute value, as C's abs and Python's abs compute it on reals. */
  function Abs(x: real): real
  {
    if x < 0.0 then -x else x
  }

  /** Squared norm of a quaternion. */
  function NormSquared(q: Quaternion): real
  {
    q.x * q.x + q.y * q.y + q.z * q.z + q.w * q.w
  }
}

=== FILE: object_manager.dfy ===
/** The collision-object bookkeeping of stackit.py (ObjectManager) and its
    pose helper projectPose. Publishing is modelled as the messages sent, in
    order; the manager's own state is a value returned by each operation. */
module ObjectManager {
  import opened Support
  import opened Geometry

  /** moveit_msgs/CollisionObject operations. */
  datatype Operation = Add | Remove | Append | Move

  /** The fields of a collision object this node reads or writes. */
  datatype CollisionObject = CollisionObject(id: string, operation: Operation, primitivePoses: seq<Pose>)

  /** A message on /collision_object or on /attached_collision_object. */
  datatype Message =
    | Collision(obj: CollisionObject)
    | Attached(obj: CollisionObject, linkName: string)

  datatype Manager = Manager(
    idOperations: map<string, Operation>,
    collisionObjects: seq<CollisionObject>,
    published: bool)

  /** The KeyError raised by publish for an id it has never seen. */
  datatype Error = UnknownId(id: string)

  /** Every listed object has a stored operation, so publishing the list
      cannot raise. */
  predicate Consistent(m: Manager)
  {
    forall k :: 0 <= k < |m.collisionObjects| ==> m.collisionObjects[k].id in m.idOperations
  }

  /** The constructor: no operations, no objects, nothing published. */
  function Init(): (m: Manager)
    ensures Consistent(m) && !m.published
    ensures m.idOperations == map[] && m.collisionObjects == []
  {
    Manager(map[], [], false)
  }

  /** The object with its operation replaced by the one stored for its id. */
  function Restamp(ops: map<string, Operation>, obj: CollisionObject): CollisionObject
    requires obj.id in ops
  {
    obj.(operation := ops[obj.id])
  }

  /** ObjectManager.publish: the object is sent carrying the operation stored
      for its id, whatever operation it carried before. */
  function Publish(m: Manager, obj: CollisionObject): (r: Result<CollisionObject, Error>)
    ensures r.Success? <==> obj.id in m.idOperations
    ensures r.Success? ==> r.value.operation == m.idOperations[obj.id]
                           && r.value.(operation := obj.operation) == obj
    ensures r.Failure? ==> r.error == UnknownId(obj.id)
  {
    if obj.id in m.idOperations then Success(Restamp(m.idOperations, obj)) else Failure(UnknownId(obj.id))
  }

  /** Setting an operation on an object just before publishing it has no
      effect on what is sent (the main loop's REMOVE included). */
  lemma PublishIgnoresCallerOperation(m: Manager, obj: CollisionObject, op: Operation)
    ensures Publish(m, obj.(operation := op)) == Publish(m, obj)
  {
  }

  /** Publishing each object of a list in turn: the objects sent, in order. */
  function PublishEach(ops: map<string, Operation>, objs: seq<CollisionObject>): (sent: seq<CollisionObject>)
    requires forall k :: 0 <= k < |objs| ==> objs[k].id in ops
    ensures |sent| == |objs|
    ensures forall k :: 0 <= k < |objs| ==>
              sent[k].operation == ops[objs[k].id] && sent[k].(operation := objs[k].operation) == objs[k]
  {
    if objs == [] then []
    else [Restamp(ops, objs[0])] + PublishEach(ops, objs[1..])
  }

  function CollisionLog(sent: seq<CollisionObject>): (log: seq<Message>)
  {
    seq(|sent|, k requires 0 <= k < |sent| => Collision(sent[k]))
  }

  /** ObjectManager.publish_all: every listed object is sent once, in list
      order; publish re-stamps the listed objects themselves as it goes. */
  function PublishAll(m: Manager): (r: (Manager, seq<Message>))
    requires Consistent(m)
    ensures r.0.idOperations == m.idOperations && r.0.published == m.published
    ensures |r.0.collisionObjects| == |m.collisionObjects| == |r.1|
    ensures forall k :: 0 <= k < |r.1| ==>
              && r.1[k] == Collision(r.0.collisionObjects[k])
              && r.0.collisionObjects[k].operation == m.idOperations[m.collisionObjects[k].id]
              && r.0.collisionObjects[k].(operation := m.collisionObjects[k].operation) == m.collisionObjects[k]
    ensures Consistent(r.0)
  {
    var sent := PublishEach(m.idOperations, m.collisionObjects);
    (m.(collisionObjects := sent), CollisionLog(sent))
  }

  // ---------------------------------------------------------------------
  // Receiving a list
  // ---------------------------------------------------------------------

  function Ids(objs: seq<CollisionObject>): set<string>
  {
    set k | 0 <= k < |objs| :: objs[k].id
  }

  /** No later object in the list has the same id as the one at k. */
  predicate LastWithId(objs: seq<CollisionObject>, k: int)
    requires 0 <= k < |objs|
  {
    forall j :: k < j < |objs| ==> objs[j].id != objs[k].id
  }

  /** The loop of ObjectManager.callback: each object's operation stored
      under its id, in list order. */
  function Record(ops: map<string, Operation>, objs: seq<CollisionObject>): (r: map<string, Operation>)
    ensures ops.Keys <= r.Keys
    ensures objs != [] ==> objs[|objs| - 1].id in r && r[objs[|objs| - 1].id] == objs[|objs| - 1].operation
    decreases |objs|
  {
    if objs == [] then ops
    else Record(ops[objs[0].id := objs[0].operation], objs[1..])
  }

  lemma IdsCons(objs: seq<CollisionObject>)
    requires objs != []
    ensures Ids(objs) == {objs[0].id} + Ids(objs[1..])
  {
    var rest := objs[1..];
    forall id | id in Ids(objs)
      ensures id in {objs[0].id} + Ids(rest)
    {
      var k :| 0 <= k < |objs| && objs[k].id == id;
      if k > 0 {
        assert rest[k - 1].id == id;
      }
    }
    forall id | id in Ids(rest)
      ensures id in Ids(objs)
    {
      var k :| 0 <= k < |rest| && rest[k].id == id;
      assert objs[k + 1].id == id;
    }
  }

  /** After recording a list, the stored ids are the old ones plus the list's. */
  lemma {:induction false} RecordKeys(ops: map<string, Operation>, objs: seq<CollisionObject>)
    ensures Record(ops, objs).Keys == ops.Keys + Ids(objs)
    decreases |objs|
  {
    if objs != [] {
      IdsCons(objs);
      RecordKeys(ops[objs[0].id := objs[0].operation], objs[1..]);
    }
  }

  /** An id the list does not mention keeps its stored operation. */
  lemma {:induction false} RecordKeepsOthers(ops: map<string, Operation>, objs: seq<CollisionObject>)
    ensures forall id :: id in ops && id !in Ids(objs) ==>
              id in Record(ops, objs) && Record(ops, objs)[id] == ops[id]
    decreases |objs|
  {
    if objs != [] {
      IdsCons(objs);
      RecordKeepsOthers(ops[objs[0].id := objs[0].operation], objs[1..]);
    }
  }

  /** Each id of the list is stored with the operation of its last occurrence. */
  lemma {:induction false} RecordLastWins(ops: map<string, Operation>, objs: seq<CollisionObject>)
    ensures forall k :: 0 <= k < |objs| && LastWithId(objs, k) ==>
              objs[k].id in Record(ops, objs) && Record(ops, objs)[objs[k].id] == objs[k].operation
    decreases |objs|
  {
    if objs != [] {
      var ops' := ops[objs[0].id := objs[0].operation];
      var rest := objs[1..];
      RecordLastWins(ops', rest);
      RecordKeepsOthers(ops', rest);
      forall k | 0 <= k < |objs| && LastWithId(objs, k)
        ensures objs[k].id in Record(ops', rest) && Record(ops', rest)[objs[k].id] == objs[k].operation
      {
        if k == 0 {
          forall j | 0 <= j < |rest|
            ensures rest[j].id != objs[0].id
          {
            assert rest[j] == objs[j + 1];
          }
          assert objs[0].id !in Ids(rest);
        } else {
          assert rest[k - 1] == objs[k];
          assert LastWithId(rest, k - 1) by {
            forall j | k - 1 < j < |rest|
              ensures rest[j].id != rest[k - 1].id
            {
              assert rest[j] == objs[j + 1];
            }
          }
        }
      }
    }
  }

  /** ObjectManager.callback: the received list replaces the stored one,
      every received operation is recorded, and only the first message
      publishes everything. */
  function Callback(m: Manager, objs: seq<CollisionObject>): (r: (Manager, seq<Message>))
    ensures r.0.published && Consistent(r.0)
    ensures r.0.idOperations.Keys == m.idOperations.Keys + Ids(objs)
    ensures forall k :: 0 <= k < |objs| && LastWithId(objs, k) ==>
              r.0.idOperations[objs[k].id] == objs[k].operation
    ensures forall id :: id in m.idOperations && id !in Ids(objs) ==>
              r.0.idOperations[id] == m.idOperations[id]
    ensures |r.0.collisionObjects| == |objs|
    ensures forall k :: 0 <= k < |objs| ==>
              r.0.collisionObjects[k].(operation := objs[k].operation) == objs[k]
    ensures m.published ==> r.1 == [] && r.0.collisionObjects == objs
    ensures !m.published ==>
              && |r.1| == |objs|
              && forall k :: 0 <= k < |objs| ==>
                   r.1[k] == Collision(objs[k].(operation := r.0.idOperations[objs[k].id]))
  {
    RecordKeys(m.idOperations, objs);
    RecordLastWins(m.idOperations, objs);
    RecordKeepsOthers(m.idOperations, objs);
    var m1 := Manager(Record(m.idOperations, objs), objs, m.published);
    assert Consistent(m1) by {
      forall k | 0 <= k < |objs|
        ensures objs[k].id in m1.idOperations
      {
        assert objs[k].id in Ids(objs);
      }
    }
    if m.published then (m1, [])
    else
      var (m2, log) := PublishAll(m1);
      (m2.(published := true), log)
  }

  // ---------------------------------------------------------------------
  // Shutdown, attaching, and the gripper pose
  // ---------------------------------------------------------------------

  /** ObjectManager.remove_known_objects as written: each object is marked
      REMOVE and published, and publish overwrites the mark with the stored
      operation, so shutdown sends exactly what publish_all sends. */
  function RemoveKnownObjects(m: Manager): (r: (Manager, seq<Message>))
    requires Consistent(m)
    ensures r == PublishAll(m)
    ensures |r.1| == |m.collisionObjects|
    ensures forall k :: 0 <= k < |r.1| ==>
              r.1[k].obj.operation == m.idOperations[m.collisionObjects[k].id]
  {
    var objs := m.collisionObjects;
    var marked := MarkRemove(objs);
    var sent := PublishEach(m.idOperations, marked);
    assert sent == PublishEach(m.idOperations, objs);
    (m.(collisionObjects := sent), CollisionLog(sent))
  }

  /** Shutdown with one known box whose stored operation is ADD sends ADD
      for it, never REMOVE. */
  lemma ShutdownResendsAdd()
    ensures var box := CollisionObject("box", Add, []);
            var m := Manager(map["box" := Add], [box], true);
            RemoveKnownObjects(m).1 == [Collision(box)]
  {
    var box := CollisionObject("box", Add, []);
    var m := Manager(map["box" := Add], [box], true);
    var r := RemoveKnownObjects(m);
    assert r.1[0] == Collision(r.0.collisionObjects[0]);
    assert r.0.collisionObjects[0] == box;
  }

  /** Every object of a list, marked REMOVE. */
  function MarkRemove(objs: seq<CollisionObject>): (marked: seq<CollisionObject>)
    ensures |marked| == |objs|
    ensures forall k :: 0 <= k < |objs| ==> marked[k] == objs[k].(operation := Remove)
  {
    seq(|objs|, k requires 0 <= k < |objs| => objs[k].(operation := Remove))
  }

  /** Recording a list marked REMOVE stores REMOVE for each of its ids and
      keeps every other entry. */
  lemma RecordRemoves(ops: map<string, Operation>, objs: seq<CollisionObject>)
    ensures Record(ops, MarkRemove(objs)).Keys == ops.Keys + Ids(objs)
    ensures forall id :: id in Ids(objs) ==> Record(ops, MarkRemove(objs))[id] == Remove
    ensures forall id :: id in ops && id !in Ids(objs) ==> Record(ops, MarkRemove(objs))[id] == ops[id]
  {
    var marked := MarkRemove(objs);
    RecordKeys(ops, marked);
    RecordLastWins(ops, marked);
    RecordKeepsOthers(ops, marked);
    assert Ids(marked) == Ids(objs) by {
      forall id | id in Ids(objs)
        ensures id in Ids(marked)
      {
        var k :| 0 <= k < |objs| && objs[k].id == id;
        assert marked[k].id == id;
      }
    }
    forall id | id in Ids(objs)
      ensures Record(ops, marked)[id] == Remove
    {
      var k := LastIndexWithId(marked, id);
    }
  }

  /** Shutdown as evidently intended: the stored operation of every listed
      id becomes REMOVE first, so each listed object is sent once, in order,
      as a removal. */
  function RemoveKnownObjectsIntended(m: Manager): (r: (Manager, seq<Message>))
    requires Consistent(m)
    ensures |r.1| == |m.collisionObjects|
    ensures forall k :: 0 <= k < |r.1| ==>
              r.1[k] == Collision(m.collisionObjects[k].(operation := Remove))
    ensures r.0.idOperations.Keys == m.idOperations.Keys
    ensures forall id :: id in Ids(m.collisionObjects) ==> r.0.idOperations[id] == Remove
    ensures forall id :: id in m.idOperations && id !in Ids(m.collisionObjects) ==>
              r.0.idOperations[id] == m.idOperations[id]
    ensures Consistent(r.0)
  {
    var objs := m.collisionObjects;
    var ops := Record(m.idOperations, MarkRemove(objs));
    RecordRemoves(m.idOperations, objs);
    forall k | 0 <= k < |objs|
      ensures objs[k].id in ops && ops[objs[k].id] == Remove
    {
      assert objs[k].id in Ids(objs);
    }
    var sent := PublishEach(ops, objs);
    assert forall k :: 0 <= k < |objs| ==> sent[k] == objs[k].(operation := Remove);
    (Manager(ops, sent, m.published), CollisionLog(sent))
  }

  /** The last position holding an id that occurs in the list. */
  function LastIndexWithId(objs: seq<CollisionObject>, id: string): (k: int)
    requires id in Ids(objs)
    ensures 0 <= k < |objs| && objs[k].id == id && LastWithId(objs, k)
    decreases |objs|
  {
    var last := |objs| - 1;
    if objs[last].id == id then last
    else
      assert id in Ids(objs[..last]) by {
        var k :| 0 <= k < |objs| && objs[k].id == id;
        assert objs[..last][k].id == id;
      }
      LastIndexWithId(objs[..last], id)
  }

  /** ObjectManager.publish_attached: the object (the caller's own, which is
      changed too) becomes an ADD, attached to the side's gripper link. The
      touch links are computed but never put in the message. */
  function PublishAttached(obj: CollisionObject, side: string): (r: (CollisionObject, Message))
    ensures r.0.operation == Add && r.0.(operation := obj.operation) == obj
    ensures r.1.Attached? && r.1.obj == r.0 && r.1.linkName == side + "_gripper"
  {
    var attached := obj.(operation := Add);
    (attached, Attached(attached, side + "_gripper"))
  }

  /** The fixed gripper-down orientation of projectPose. */
  const GripperDown: Quaternion :=
    Quaternion(0.6509160466, 0.758886809948, -0.0180992582839, -0.0084573527776)

  /** projectPose: the orientation becomes the gripper-down quaternion and the
      position is kept. */
  function ProjectPose(pose: Pose): (r: Pose)
    ensures r.position == pose.position
    ensures r.orientation == GripperDown
  {
    pose.(orientation := GripperDown)
  }

  /** Projecting twice is projecting once, and the fixed orientation is a
      unit quaternion to within 10^-9. */
  lemma ProjectPoseIdempotent(pose: Pose)
    ensures ProjectPose(ProjectPose(pose)) == ProjectPose(pose)
    ensures -0.000000001 < NormSquared(ProjectPose(pose).orientation) - 1.0 < 0.000000001
  {
  }

  // ---------------------------------------------------------------------
  // Runs of received lists
  // ---------------------------------------------------------------------

  function Callbacks(m: Manager, msgs: seq<seq<CollisionObject>>): (r: (Manager, seq<Message>))
    decreases |msgs|
  {
    if msgs == [] then (m, [])
    else
      var (next, log) := Callback(m, msgs[0]);
      var (last, rest) := Callbacks(next, msgs[1..]);
      (last, log + rest)
  }

  /** Once published, further lists publish nothing. */
  lemma {:induction false} PublishedCallbacksAreSilent(m: Manager, msgs: seq<seq<CollisionObject>>)
    requires m.published
    ensures Callbacks(m, msgs).1 == [] && Callbacks(m, msgs).0.published
    decreases |msgs|
  {
    if msgs != [] {
      PublishedCallbacksAreSilent(Callback(m, msgs[0]).0, msgs[1..]);
    }
  }

  /** From a fresh manager, everything a run publishes is what its first
      list published; every state reached is consistent. */
  lemma PublishAllOnlyOnFirstCallback(msgs: seq<seq<CollisionObject>>)
    requires |msgs| > 0
    ensures Callbacks(Init(), msgs).1 == Callback(Init(), msgs[0]).1
    ensures Callbacks(Init(), msgs).0.published
    ensures Consistent(Callbacks(Init(), msgs).0)
  {
    var first := Callback(Init(), msgs[0]);
    PublishedCallbacksAreSilent(first.0, msgs[1..]);
    CallbacksKeepConsistent(first.0, msgs[1..]);
    assert Callbacks(Init(), msgs).1 == first.1 + Callbacks(first.0, msgs[1..]).1;
  }

  lemma {:induction false} CallbacksKeepConsistent(m: Manager, msgs: seq<seq<CollisionObject>>)
    requires Consistent(m)
    ensures Consistent(Callbacks(m, msgs).0)
    decreases |msgs|
  {
    if msgs != [] {
      CallbacksKeepConsistent(Callback(m, msgs[0]).0, msgs[1..]);
    }
  }
}

=== FILE: support.dfy ===
/** Failure-carrying wrappers shared by the three nodes of the model. */
module Support {

  /** A value that may be missing, as a Python attribute initialised to None. */
  datatype Option<+T> = None | Some(value: T)

  /** The outcome of an operation that the source aborts with an exception. */
  datatype Result<+T, +E> = Success(value: T) | Failure(error: E)
}

=== FILE: visual_servo.dfy ===
/** The visual-servo mode selector (visual_servo.py, VisualCommand): four
    states (wait, planar servo, descend, done) chosen from the blob centroid's
    pixel offset to the goal and from whether the hand is still out of
    grasping range. The numpy direction arithmetic (rotation into the base
    frame and normalisation) is outside the model: the planar direction and
    the final rescale are the parameters `planar` and `rescale`. */
module VisualServo {
  import opened Support
  import opened Geometry

  /** Pixel offset beyond which both axes must lie for planar servoing. */
  const Threshold: real := 10.0

  /** The centroid coordinate sent when no blob is seen. */
  const NoCentroid: real := -1.0

  /** The node's parameters: servo_speed, min_pose_z, min_ir_depth, and
      the goal pixel (camera size times goal ratio). */
  datatype Params = Params(inc: real, minPoseZ: real, minIrDepth: real, goalX: real, goalY: real)

  /** self.states, in index order 0 to 3. */
  datatype Mode = WaitCentroid | ServoXy | ServoZ | DoneState

  datatype Command = Command(
    stateidx: Mode,
    done: bool,
    centroid: Option<(real, real)>,
    irReading: Option<real>)

  /** What one dispatch asks of the arm. `heading` is the direction before
      servo_xy's final rescale; `target` is the seven numbers (position then
      orientation) sent to the IK service. */
  datatype Effect = NoEffect | IkRequest(heading: Vector3, target: seq<real>) | Finished

  /** The constructor: waiting, not done, no centroid or range yet, so the
      hand counts as in range until the first reading. */
  function Init(): (vc: Command)
    ensures vc.stateidx == WaitCentroid && !vc.done
    ensures vc.centroid.None? && vc.irReading.None?
    ensures forall endpoint, p :: !OutOfRange(endpoint, vc.irReading, p)
  {
    Command(WaitCentroid, false, None, None)
  }

  /** VisualCommand.outOfRange. Python 2 orders None below every number, so
      before the first range reading the test is false. */
  function OutOfRange(endpoint: Pose, ir: Option<real>, p: Params): (oor: bool)
    ensures ir.None? ==> !oor
    ensures ir.Some? ==> (oor <==> endpoint.position.z >= p.minPoseZ && ir.value >= p.minIrDepth)
    ensures oor ==> endpoint.position.z >= p.minPoseZ
  {
    endpoint.position.z >= p.minPoseZ && ir.Some? && ir.value >= p.minIrDepth
  }

  /** The pose as the seven numbers position + orientation. */
  function PoseArray(pose: Pose): (a: seq<real>)
    ensures |a| == 7 && ToPose(a) == pose
  {
    [pose.position.x, pose.position.y, pose.position.z,
     pose.orientation.x, pose.orientation.y, pose.orientation.z, pose.orientation.w]
  }

  function ToPose(a: seq<real>): Pose
    requires |a| == 7
  {
    Pose(Point(a[0], a[1], a[2]), Quaternion(a[3], a[4], a[5], a[6]))
  }

  /** VisualCommand.command_ik: the direction padded with four zeros and
      added to the current endpoint pose, so the request moves the position
      by the direction and keeps the orientation. */
  function CommandIk(endpoint: Pose, direction: Vector3): (target: seq<real>)
    ensures |target| == 7
    ensures ToPose(target) == Pose(Translate(endpoint.position, direction), endpoint.orientation)
  {
    var current := PoseArray(endpoint);
    var padded := [direction.x, direction.y, direction.z, 0.0, 0.0, 0.0, 0.0];
    seq(7, i requires 0 <= i < 7 => current[i] + padded[i])
  }

  /** The mode visual_servo picks from the offset and the range test: never
      waiting, planar servo exactly when both offsets exceed the threshold,
      otherwise descend or done according to the range test. */
  function SelectMode(dx: real, dy: real, outOfRange: bool): (m: Mode)
    ensures m != WaitCentroid
    ensures m == ServoXy <==> Abs(dx) > Threshold && Abs(dy) > Threshold
    ensures m == ServoZ <==> !(Abs(dx) > Threshold && Abs(dy) > Threshold) && outOfRange
    ensures m == DoneState <==> !(Abs(dx) > Threshold && Abs(dy) > Threshold) && !outOfRange
  {
    if Abs(dx) > Threshold && Abs(dy) > Threshold then ServoXy
    else if outOfRange then ServoZ
    else DoneState
  }

  /** Runs the state action `mode`: servo_xy keeps the planar direction
      and climbs by the speed unless out of range; servo_z descends by the
      speed; done_state sets the latch. Each request keeps the hand's
      orientation. */
  function Dispatch(vc: Command, mode: Mode, p: Params, endpoint: Pose, dx: real, dy: real,
                    planar: (real, real) -> Vector3, rescale: Vector3 -> Vector3): (r: (Command, Effect))
    ensures mode == WaitCentroid ==> r == (vc, NoEffect)
    ensures mode == ServoXy ==>
              && r.0 == vc && r.1.IkRequest?
              && r.1.heading.x == planar(dx, dy).x && r.1.heading.y == planar(dx, dy).y
              && r.1.heading.z == (if OutOfRange(endpoint, vc.irReading, p) then 0.0 else p.inc)
              && |r.1.target| == 7
              && ToPose(r.1.target) == Pose(Translate(endpoint.position, rescale(r.1.heading)), endpoint.orientation)
    ensures mode == ServoZ ==>
              && r.0 == vc && r.1.IkRequest? && |r.1.target| == 7
              && ToPose(r.1.target) == Pose(Point(endpoint.position.x, endpoint.position.y, endpoint.position.z - p.inc),
                                            endpoint.orientation)
    ensures mode == DoneState ==> r.0 == vc.(done := true) && r.1 == Finished
  {
    match mode
    case WaitCentroid => (vc, NoEffect)
    case ServoXy =>
      var d := planar(dx, dy);
      var heading := Vector3(d.x, d.y, if !OutOfRange(endpoint, vc.irReading, p) then p.inc else 0.0);
      (vc, IkRequest(heading, CommandIk(endpoint, rescale(heading))))
    case ServoZ =>
      var heading := Vector3(0.0, 0.0, -p.inc);
      (vc, IkRequest(heading, CommandIk(endpoint, heading)))
    case DoneState => (vc.(done := true), Finished)
  }

  /** VisualCommand.visual_servo: nothing once done; otherwise the mode is
      planar servo when both offsets exceed the threshold, else descend when
      out of range, else done, and its action runs. */
  function Servo(vc: Command, p: Params, endpoint: Pose,
                 planar: (real, real) -> Vector3, rescale: Vector3 -> Vector3): (r: (Command, Effect))
    requires vc.centroid.Some?
    ensures vc.done ==> r == (vc, NoEffect)
    ensures !vc.done ==>
              var dx, dy := vc.centroid.value.0 - p.goalX, vc.centroid.value.1 - p.goalY;
              var far := Abs(dx) > Threshold && Abs(dy) > Threshold;
              var oor := OutOfRange(endpoint, vc.irReading, p);
              && (r.0.stateidx == ServoXy <==> far)
              && (r.0.stateidx == ServoZ <==> !far && oor)
              && (r.0.stateidx == DoneState <==> !far && !oor)
              && (r.0.done <==> r.0.stateidx == DoneState)
              && (r.1 == Finished <==> r.0.stateidx == DoneState)
              && r.1 != NoEffect
              && r.0.centroid == vc.centroid && r.0.irReading == vc.irReading
              && r == Dispatch(vc.(stateidx := r.0.stateidx), r.0.stateidx, p, endpoint, dx, dy, planar, rescale)
  {
    var dx := vc.centroid.value.0 - p.goalX;
    var dy := vc.centroid.value.1 - p.goalY;
    if vc.done then (vc, NoEffect)
    else
      var mode := SelectMode(dx, dy, OutOfRange(endpoint, vc.irReading, p));
      Dispatch(vc.(stateidx := mode), mode, p, endpoint, dx, dy, planar, rescale)
  }

  /** VisualCommand.centroid_callback: the centroid is stored; a sentinel
      coordinate resets to waiting and runs nothing, whether or not done;
      any other centroid servos. */
  function CentroidCallback(vc: Command, p: Params, x: real, y: real, endpoint: Pose,
                            planar: (real, real) -> Vector3, rescale: Vector3 -> Vector3): (r: (Command, Effect))
    ensures r.0.centroid == Some((x, y)) && r.0.irReading == vc.irReading
    ensures x == NoCentroid || y == NoCentroid ==>
              r.0.stateidx == WaitCentroid && r.1 == NoEffect && r.0.done == vc.done
    ensures vc.done ==> r.0.done && r.1 == NoEffect
    ensures vc.done && x != NoCentroid && y != NoCentroid ==> r.0.stateidx == vc.stateidx
    ensures !vc.done && x != NoCentroid && y != NoCentroid ==>
              r.0.stateidx != WaitCentroid && r.1 != NoEffect
    ensures !vc.done && x != NoCentroid && y != NoCentroid ==>
              r.0.stateidx == SelectMode(x - p.goalX, y - p.goalY, OutOfRange(endpoint, vc.irReading, p))
  {
    var vc1 := vc.(centroid := Some((x, y)));
    if x == NoCentroid || y == NoCentroid then (vc1.(stateidx := WaitCentroid), NoEffect)
    else Servo(vc1, p, endpoint, planar, rescale)
  }

  /** VisualCommand.ir_callback. */
  function IrCallback(vc: Command, range: real): (r: Command)
    ensures r.irReading == Some(range)
    ensures r.(irReading := vc.irReading) == vc
  {
    vc.(irReading := Some(range))
  }

  // ---------------------------------------------------------------------
  // Runs of messages
  // ---------------------------------------------------------------------

  datatype Event = CentroidMessage(x: real, y: real, endpoint: Pose) | RangeMessage(range: real)

  function Step(vc: Command, e: Event, p: Params,
                planar: (real, real) -> Vector3, rescale: Vector3 -> Vector3): (Command, Effect)
  {
    match e
    case CentroidMessage(x, y, endpoint) => CentroidCallback(vc, p, x, y, endpoint, planar, rescale)
    case RangeMessage(range) => (IrCallback(vc, range), NoEffect)
  }

  /** The messages handled in order, with one effect per message. */
  function Run(vc: Command, es: seq<Event>, p: Params,
               planar: (real, real) -> Vector3, rescale: Vector3 -> Vector3): (r: (Command, seq<Effect>))
    ensures |r.1| == |es|
    decreases |es|
  {
    if es == [] then (vc, [])
    else
      var (next, effect) := Step(vc, es[0], p, planar, rescale);
      var (last, effects) := Run(next, es[1..], p, planar, rescale);
      (last, [effect] + effects)
  }

  /** Once done, every later message leaves it done and runs no action. */
  lemma {:induction false} DoneIsLatched(vc: Command, es: seq<Event>, p: Params,
                                         planar: (real, real) -> Vector3, rescale: Vector3 -> Vector3)
    requires vc.done
    ensures var r := Run(vc, es, p, planar, rescale);
            r.0.done && forall k :: 0 <= k < |r.1| ==> r.1[k] == NoEffect
    decreases |es|
  {
    if es != [] {
      var (next, effect) := Step(vc, es[0], p, planar, rescale);
      DoneIsLatched(next, es[1..], p, planar, rescale);
    }
  }

  /** The done state runs at most once: after it, a run asks nothing more. */
  lemma {:induction false} NothingAfterFinished(vc: Command, es: seq<Event>, p: Params,
                                                planar: (real, real) -> Vector3, rescale: Vector3 -> Vector3)
    ensures var effects := Run(vc, es, p, planar, rescale).1;
            forall i, j :: 0 <= i < j < |effects| && effects[i] == Finished ==> effects[j] == NoEffect
    decreases |es|
  {
    if es != [] {
      var (next, effect) := Step(vc, es[0], p, planar, rescale);
      var effects := Run(vc, es, p, planar, rescale).1;
      var rest := Run(next, es[1..], p, planar, rescale).1;
      assert effects == [effect] + rest;
      NothingAfterFinished(next, es[1..], p, planar, rescale);
      if effect == Finished {
        DoneIsLatched(next, es[1..], p, planar, rescale);
      }
      forall i, j | 0 <= i < j < |effects| && effects[i] == Finished
        ensures effects[j] == NoEffect
      {
        if i > 0 {
          assert rest[i - 1] == Finished;
        }
        assert effects[j] == rest[j - 1];
      }
    }
  }
}
